=== FILE: README.md ===
# readiness-controller, modelled in Dafny

This project models the decision logic of the readiness controller, also called the heartbeat operator. The controller probes a target on a fixed interval and writes the verdict into the status of a `Probe` custom resource. It keeps a display cache of the latest verdicts for its status page. It also runs a mutating admission webhook that adds a readiness gate to labelled Deployments, and it bootstraps that webhook's TLS trust.

Each piece is a pure function over immutable datatypes:

- `Controller.Reconcile` is one reconcile pass. It is a state transition from the probe verdict, the display cache, the `Probe` store and the clock to the new cache, the new store and the list of writes issued (`Create`, `UpdateStatus`, each with whether the store accepted it).
- The cluster API behind the store is `ProbeApi`, an abstract name-to-`Probe` map. Each call takes a flag saying whether it fails for reasons outside the model. On top of that the store answers `NotFound` and `AlreadyExists` the way the API server does.
- `Controller.Start` runs `ensureCR` and then a sequence of passes. `Controller.StartAsWritten` is the same start as the source writes it (see Findings).
- `Admission.ProcessAdmissionReview` maps a decoded admission request to a response with an optional JSON Patch. `Admission.ApplyPatch` gives RFC 6902 section 4.1 `add` semantics for the one member the patch touches. It also refuses a value of the wrong shape, as the API server's schema does. This is used to prove what the patch does to the Deployment.
- `CABundle.PatchWebhookCABundle` sets every webhook's CA bundle in the fetched configuration and sends one update.
- `Certs.GenerateCerts` builds the CA and server certificate templates. Key generation and signing are parameters.
- `Display.UpdateState` and `Display.Snapshot` are the status page's cache and its name-sorted listing.
- `ExecProbe` covers the command prober. `StringFields.Fields` is Go's `strings.Fields`, with white space as `unicode.IsSpace` defines it.
- `Config.ParseInterval` is the interval fallback. Go's `time.ParseDuration` is passed in as a function.

Time is split by use:

- The reconciler's clock is an integer number of seconds. This is the precision at which the API server keeps a `metav1.Time`, so a timestamp read back equals the one written. Go measures the age of that timestamp at nanosecond precision; see `Controller.WriteStatus` under "## Left out".
- Durations and certificate validity are in nanoseconds, like Go's `time.Duration`.

Three details of the code that the model keeps as written:

- The heartbeat write happens when the stored timestamp is strictly more than one minute old, not at 60 seconds exactly.
- The display cache is updated before the resource is fetched, not after the write.
- The inject label is looked up in the Deployment's own metadata labels, not in the pod template's labels.

## Model

| member | source | states |
|---|---|---|
| Config.ParseInterval | internal/config/config.go:32-38 | A parsed duration is returned unchanged and unclamped. A parse failure gives exactly 5 s. The function is total. A non-positive result can only come from the parser. |
| StringFields.FieldsAreTokens | internal/prober/exec.go:14 | Every field `strings.Fields` produces is non-empty and contains no white space. |
| StringFields.FieldsKeepEveryOtherCharacter | internal/prober/exec.go:14 | The fields, concatenated, equal the input with all white space deleted: no other character is lost, added or reordered. |
| StringFields.JoinedFieldsSqueeze | internal/prober/exec.go:14 | Joining the fields with single spaces gives the input trimmed, with each inner white-space run collapsed to one space. |
| StringFields.NoFieldsIffBlank | internal/prober/exec.go:14 | There are no fields exactly when the input is empty or all white space. |
| StringFields.SingleTokenIsOneField | internal/prober/exec.go:14 | A string without white space splits into itself. |
| ExecProbe.NewExecProber | internal/prober/exec.go:13-16 | The command is the list of fields of the command line: tokens whose join is the squeezed command line. It is empty exactly for a blank line. |
| ExecProbe.Check | internal/prober/exec.go:18-29 | An empty command is unhealthy and launches nothing. Otherwise the first field is the program and the rest are its arguments, in order. The check is healthy exactly when the run reports no error. |
| ExecProbe.BlankCommandNeverRuns | internal/prober/exec.go:13-21 | A command line launches nothing exactly when it is blank, and a blank one is unhealthy for every runner. |
| ExecProbe.LaunchedCommandMatchesConfig | internal/prober/exec.go:14-22 | For a non-blank line, the launched program and arguments are tokens and re-join to the squeezed command line. |
| Display.UpdateState | internal/ui/server.go:26-43 | The entry at the rule name gets that name, target, check type and health. Its message is "Gate Open" exactly when healthy and "Gate Closed" exactly when not. All other entries are unchanged. Entries filed under their own name stay so. |
| Display.Snapshot | internal/ui/server.go:91-99 | The list holds every cache entry once (a bijection with the keys), in non-decreasing name order. When every entry is filed under its own name, the order is strictly ascending. |
| ProbeApi.Get | internal/controller/crd_client.go:50-59 | A Get succeeds exactly when no fault is injected and the name is present, and then returns the stored resource. |
| ProbeApi.Create | internal/controller/crd_client.go:39-48 | A Create succeeds exactly when no fault is injected and the name is absent. It stores the resource with an empty status, and a failed Create changes nothing. |
| ProbeApi.UpdateStatus | internal/controller/crd_client.go:61-72 | An UpdateStatus succeeds exactly when no fault is injected and the resource exists. It replaces only the status, and a failed one changes nothing. |
| Controller.NewProbe | internal/controller/controller.go:73-83 | The created resource carries the rule's name, namespace, check type, check target and interval. |
| Controller.EnsureCR | internal/controller/controller.go:65-87 | A successful Get means no write. Any failed Get, whatever the cause, leads to exactly one Create of the rule's resource. The result is nil exactly when the resource was found or created. A successful Create adds exactly the rule's new resource, and a failure leaves the store as it was. |
| Controller.DesiredMessage | internal/controller/controller.go:124-128 | The message is "Check passed" exactly when healthy and "Check failed" exactly when not. |
| Controller.WriteStatus | internal/controller/controller.go:121-149 | At most one UpdateStatus, issued exactly when the (healthy, message) pair differs or the timestamp is missing or more than a minute old. It carries the verdict, the message and `now`. A heartbeat write changes only the timestamp. |
| Controller.RecoverAndWrite | internal/controller/controller.go:105-149 | After a failed fetch ensureCR always runs. If its Create or the re-fetch fails, the pass ends with ensureCR's writes and the store it left, and there is no status write. When both succeed, the writes are ensureCR's (a Create or nothing) followed by exactly the status write the throttling rule asks for on the re-fetched resource, as after a clean fetch. The store is then the one ensureCR left, with only the status stamped when that write is needed and accepted. |
| Controller.Reconcile | internal/controller/controller.go:89-150 | The display cache takes the verdict whatever happens later. A pass issues at most a Create, only after a failed first fetch, and then one stamped status write. On a clean fetch, and after a successful re-creation and re-fetch, it writes exactly when the throttling rule asks. In both cases the resulting store is pinned: a failed or skipped status write leaves the store the fetch saw, and an accepted one changes only the status. When re-creation or re-fetch fails, the pass ends with ensureCR's Create, if any, and the store it left. After a clean fetch, a failed status write changes nothing and an accepted one replaces the resource by the stamped one. On any path an accepted write leaves the verdict and time in the store, and no other resource is touched. |
| Controller.MissingResourceIsCreatedAndStamped | internal/controller/controller.go:106-134 | A missing resource is created, fetched back with an empty status and stamped with the verdict in the same pass: a Create and then one UpdateStatus. |
| Controller.CurrentStatusWritesNothing | internal/controller/controller.go:105-148 | When the stored status already carries the verdict and its message and is at most a minute old, a pass writes no status. With a clean first fetch it writes nothing at all. |
| Controller.RepeatWithinAMinuteWritesNothing | internal/controller/controller.go:130-148 | After an accepted status write, a pass with the same verdict at most a minute later writes no status. With a clean first fetch it writes nothing at all. |
| Controller.RunPasses | internal/controller/controller.go:52-62 | The first pass runs on the given state and its writes come first. Afterwards the cache holds the last verdict under the rule's name, and other cache entries are unchanged. |
| Controller.RunPassesTouchOnlyTheRule | internal/controller/controller.go:52-62 | Over any number of passes, no resource other than the rule's own is changed, and only the rule's own may be added. |
| Controller.StartAsWritten | internal/controller/controller.go:38-53 | As written, start crashes exactly when the parsed interval is not positive. It then runs no pass: only ensureCR's writes and store changes happen. |
| Controller.ZeroIntervalCrashesStart | internal/controller/controller.go:48-49 | A rule interval of "0s" parses to 0, is not clamped, and makes the as-written start crash before its first pass. |
| Controller.TickerInterval | internal/controller/controller.go:48-49 | The ticker interval is always positive. It is the parsed interval when that is positive and the 5 s default otherwise. |
| Controller.Start | internal/controller/controller.go:38-62 | Start never crashes. A failed ensureCR is not fatal: its writes come first, every pass then runs, and the cache shows the last verdict. It is the as-written start run with the fallback interval: the parsed interval when that is positive, else the 5 s default. So it equals the as-written start whenever that one does not crash. |
| Admission.ConditionType | internal/webhook/handler.go:86 | The condition type is the prefix "controller.rc/" followed by the label value. |
| Admission.ProcessAdmissionReview | internal/webhook/handler.go:68-118 | A missing request or a non-Deployment is allowed unchanged. A decode failure is allowed, with its error as the message. A missing inject label is allowed unchanged. Otherwise there is exactly one `add` of the prefixed gate: the whole list when the list is empty, an append at "-" otherwise. Only a marshal failure is not allowed, and that response carries no patch and no patch type. |
| Admission.HandleMutate | internal/webhook/handler.go:46-54 | The response echoes the request's UID, or is empty without a request. It keeps the review's type metadata and is otherwise the mutator's response. |
| Admission.PatchAppendsGate | internal/webhook/handler.go:79-103 | Applying the chosen patch to the Deployment's document, whether its gate list is absent or written out, yields the existing gates plus the new gate. |
| Admission.AppendToMissingListFails | internal/webhook/handler.go:95-103 | An append at "-" to a missing gate list fails, which is why the empty case adds the whole list. |
| Admission.ExistingGateIsAppendedAgain | internal/webhook/handler.go:79-103 | A Deployment that already has the gate gets one more copy, because there is no duplicate check. |
| CABundle.InjectCABundle | internal/webhook/patch.go:22-24 | Every entry's CA bundle becomes the CA bytes. The number and order of entries and every other field are unchanged. |
| CABundle.InjectIdempotent | internal/webhook/patch.go:22-24 | Injecting twice equals injecting once. |
| CABundle.PatchWebhookCABundle | internal/webhook/patch.go:12-33 | A failed fetch returns an error and sends no update. Otherwise exactly one update is sent: the fetched object with every CA bundle set and everything else, the resource version included, unchanged. The result is nil exactly when the update succeeds. |
| CABundle.PatchTwiceSendsSameObject | internal/webhook/patch.go:22-26 | Registering again against the object the first run sent sends the same object. |
| Certs.DnsNames | internal/webhook/certs.go:43-47 | The names are the service, service.namespace and service.namespace.svc, in that order. |
| Certs.CATemplate | internal/webhook/certs.go:22-31 | Serial 2025, IsCA, BasicConstraintsValid, key usage {DigitalSignature, CertSign}, extended usage [ClientAuth, ServerAuth], valid from the clock reading for 365×24 h. The subject has only the organization, and there are no DNS names and no subject key id. |
| Certs.ServerTemplate | internal/webhook/certs.go:49-61 | Serial 2026, the three DNS names, and a common name equal to the third. Key usage {DigitalSignature} only, extended usage [ClientAuth, ServerAuth], valid for 365×24 h. |
| Certs.GenerateCerts | internal/webhook/certs.go:21-78 | The CA template takes the clock when it is built and the server template its own later reading. The first failing key generation or signing returns its error and no bundle. The leaf is signed with the CA template as parent and the CA key. Success returns blocks typed CERTIFICATE, CERTIFICATE and RSA PRIVATE KEY. |
| Certs.TemplatesAreDistinct | internal/webhook/certs.go:22-61 | The two templates have distinct serials. Only the CA template is a CA or may sign certificates. Both are valid for the same length of time, and with a clock that does not run backwards the server certificate expires no earlier than the CA. |

## Findings

| source | as written | input that shows it | evidently intended | confidence | as-written member | corrected member |
|---|---|---|---|---|---|---|
| internal/controller/controller.go:48-49 | The interval from `ParseInterval` goes straight to `time.NewTicker`, which panics on a non-positive duration. `ParseInterval` does not clamp, so the panic ends the process. | a rule with `"interval": "0s"` (or `"-1s"`) | a non-positive interval falls back to the 5 s default, as an unparseable one does | medium (not executed) | Controller.StartAsWritten, Controller.ZeroIntervalCrashesStart | Controller.Start, Controller.TickerInterval |

## Left out

- Process startup, env-var defaults, signal handling, the goroutine-per-rule fan-out and the WaitGroup are left out. This is concurrency and I/O. Passes of one rule are modelled as a sequence.
- The check-type switch in `cmd/heartbeat-operator/main.go` is left out. It only maps a string to a prober.
- The pod-condition reconciler and its retry-on-conflict loop are left out. Their implementation is not part of this model.
- The HTTP and TCP probers are left out. They are network I/O and not part of this model.
- Prometheus metrics are left out. They use float gauges and wall-clock timestamps and do not affect any decision.
- Logging is left out. Every logged-and-ignored error is modelled as ignored.
- The REST client itself is left out. `ProbeApi` replaces it with an abstract store. Optimistic-concurrency conflicts and other transient failures are folded into the per-call fault flags.
- HTML rendering, the read/write lock, the HTTP listener and the `"15:04:05"` time formatting of the status page are left out. The formatted time is a parameter.
- JSON decoding of the admission review and the Deployment, and JSON encoding of the patch and the response, are left out. The request arrives decoded, and the decode and marshal errors are parameters. Encoding this patch cannot fail in Go, so the marshal-error branch is kept only to mirror the code. Reading the request body and the HTTP 400/500 replies of `HandleMutate` are left out too.
- `Admission.ApplyOp` models RFC 6902 `add` only on the readinessGates member of the pod template spec. That is the only member the hook's patch touches.
- RSA key generation, X.509 DER signing, the PKCS #1 private-key encoding and the PEM text encoding (RFC 7468 section 2) are left out. They are foreign library calls, and keys and certificates are opaque bytes.
- Certs.GenerateCerts: within each template the `NotBefore` and `NotAfter` readings of `time.Now()` are one reading, because they are adjacent fields of one literal. The two templates have separate readings.
- Writing the certificate files and the webhook's TLS listener are left out. They are file and network I/O.
- `time.ParseDuration` internals are left out. It is passed in as a function. `LoadRules` file reading is left out.
- Go `int64` limits on durations and the `metav1.Time` clock are not modelled, because integers are unbounded here.
- The controller reads the clock once per pass: the same `now` is written as the timestamp and used for the one-minute comparison.
- Controller.WriteStatus: does not model sub-second time. Go stores the timestamp truncated to whole seconds but `time.Since` measures at nanosecond precision, so the heartbeat write can fire up to one second earlier in Go than in the model. A write at 100.9 s is stored as 100 s, and a pass at 160.5 s sees 60.5 s > 1 min and writes, where the model, with clock 160, does not.
- Controller.RepeatWithinAMinuteWritesNothing: holds for the whole-second clock only. For the reason above, in Go a pass 59.6 s after a write can still send a heartbeat.
- StringFields.Fields works on decoded Unicode scalar values. Go's handling of invalid UTF-8 bytes, which never count as white space, is not modelled.
- Running the command in `ExecProbe.Check` is left out. Whether the run succeeds is a parameter.

=== FILE: admission.dfy ===
/**
 * The mutating admission hook of internal/webhook/handler.go: a labelled
 * Deployment gets one readiness gate added to its pod template through a
 * JSON Patch (RFC 6902).  Decoding and encoding JSON are not modelled:
 * the request arrives decoded (with the Deployment's own decode outcome)
 * and the patch is a list of operation records.  Applying a patch is
 * modelled for the one member the hook touches, to state what the patch
 * does to the Deployment.
 */
module Admission {
  import opened Common

  const InjectLabel: string := "readiness-controller.io/inject"
  const ConditionPrefix: string := "controller.rc/"
  const GatesPath: string := "/spec/template/spec/readinessGates"
  /** RFC 6901 section 4: the "-" token names the position after the last array element. */
  const AppendPath: string := "/spec/template/spec/readinessGates/-"

  datatype ReadinessGate = ReadinessGate(conditionType: string)

  /** The parts of a decoded Deployment the hook reads. */
  datatype Deployment = Deployment(
    name: string,
    labels: map<string, string>,            // the Deployment's own metadata labels
    readinessGates: seq<ReadinessGate>      // spec.template.spec.readinessGates
  )

  datatype GroupVersionKind = GroupVersionKind(group: string, version: string, kind: string)

  /** An admission request; `decoded` is the outcome of decoding its raw object as a Deployment. */
  datatype AdmissionRequest = AdmissionRequest(uid: string, kind: GroupVersionKind, decoded: Result<Deployment, string>)

  datatype PatchValue = GateList(gates: seq<ReadinessGate>) | OneGate(gate: ReadinessGate)

  datatype PatchOp = PatchOp(op: string, path: string, value: PatchValue)

  datatype PatchType = JSONPatch

  datatype AdmissionResponse = AdmissionResponse(
    uid: string,
    allowed: bool,
    resultMessage: Option<string>,
    patch: Option<seq<PatchOp>>,
    patchType: Option<PatchType>
  )

  datatype TypeMeta = TypeMeta(apiVersion: string, kind: string)

  datatype AdmissionReview = AdmissionReview(
    typeMeta: TypeMeta,
    request: Option<AdmissionRequest>,
    response: Option<AdmissionResponse>
  )

  /** A response that lets the object through unchanged. */
  const AllowUnchanged: AdmissionResponse := AdmissionResponse("", true, None, None, None)

  /** The condition type injected for a label value. */
  function ConditionType(labelValue: string): (t: string)
    ensures |t| == |ConditionPrefix| + |labelValue|
    ensures t[..|ConditionPrefix|] == ConditionPrefix && t[|ConditionPrefix|..] == labelValue
  {
    ConditionPrefix + labelValue
  }

  /**
   * processAdmissionReview.  `marshalError` is the error, if any, of
   * encoding the patch as JSON.
   */
  function ProcessAdmissionReview(req: Option<AdmissionRequest>, marshalError: Option<string>): (r: AdmissionResponse)
    // no request, or not a Deployment (of any group and version): let it through untouched
    ensures (req.None? || req.value.kind.kind != "Deployment") ==> r == AllowUnchanged
    // an undecodable Deployment is let through, with the decode error as the message
    ensures (req.Some? && req.value.kind.kind == "Deployment" && req.value.decoded.Err?) ==>
      r == AllowUnchanged.(resultMessage := Some(req.value.decoded.error))
    // a Deployment without the inject label is let through untouched
    ensures (req.Some? && req.value.kind.kind == "Deployment" && req.value.decoded.Ok?
             && InjectLabel !in req.value.decoded.value.labels) ==> r == AllowUnchanged
    ensures (req.Some? && req.value.kind.kind == "Deployment" && req.value.decoded.Ok?
             && InjectLabel in req.value.decoded.value.labels && marshalError.None?) ==> r.patch.Some?
    // otherwise exactly one "add" of the prefixed gate: the whole list when there is none yet, an append otherwise
    ensures r.patch.Some? ==>
      && req.Some? && req.value.decoded.Ok? && InjectLabel in req.value.decoded.value.labels
      && var d := req.value.decoded.value;
         var gate := ReadinessGate(ConditionType(d.labels[InjectLabel]));
         && r.allowed && r.patchType == Some(JSONPatch) && r.resultMessage.None?
         && (d.readinessGates == [] ==> r.patch.value == [PatchOp("add", GatesPath, GateList([gate]))])
         && (d.readinessGates != [] ==> r.patch.value == [PatchOp("add", AppendPath, OneGate(gate))])
    // the hook never rejects, except when the patch cannot be encoded
    ensures !r.allowed <==>
      && req.Some? && req.value.kind.kind == "Deployment" && req.value.decoded.Ok?
      && InjectLabel in req.value.decoded.value.labels && marshalError.Some?
    ensures !r.allowed ==> r.patch.None? && r.patchType.None? && r.resultMessage == marshalError
    ensures r.uid == ""
  {
    if req.None? || req.value.kind.kind != "Deployment" then
      AllowUnchanged
    else
      match req.value.decoded
      case Err(e) => AdmissionResponse("", true, Some(e), None, None)
      case Ok(d) =>
        if InjectLabel !in d.labels then
          AllowUnchanged
        else
          var fullConditionType := ConditionPrefix + d.labels[InjectLabel];
          var patch :=
            if |d.readinessGates| > 0 then
              [PatchOp("add", AppendPath, OneGate(ReadinessGate(fullConditionType)))]
            else
              [PatchOp("add", GatesPath, GateList([ReadinessGate(fullConditionType)]))];
          match marshalError
          case Some(e) => AdmissionResponse("", false, Some(e), None, None)
          case None => AdmissionResponse("", true, None, Some(patch), Some(JSONPatch))
  }

  /** HandleMutate, after the review is decoded: the response echoes the request's UID. */
  function HandleMutate(review: AdmissionReview, marshalError: Option<string>): (out: AdmissionReview)
    ensures out.typeMeta == review.typeMeta && out.request.None? && out.response.Some?
    ensures review.request.Some? ==> out.response.value.uid == review.request.value.uid
    ensures review.request.None? ==> out.response.value.uid == ""
    ensures out.response.value.(uid := "") == ProcessAdmissionReview(review.request, marshalError)
  {
    var response := ProcessAdmissionReview(review.request, marshalError);
    var response' := if review.request.Some? then response.(uid := review.request.value.uid) else response;
    AdmissionReview(review.typeMeta, None, Some(response'))
  }

  // ---------------------------------------------------------------------
  // What the patch does (RFC 6902 section 4.1, "add")

  /**
   * The readinessGates member of the pod template spec in the JSON
   * document: absent (how an empty list is usually serialized) or an array.
   */
  datatype GatesMember = Absent | Present(gates: seq<ReadinessGate>)

  /** The list a Deployment decoded from the document holds. */
  function DecodedGates(m: GatesMember): seq<ReadinessGate> {
    match m
    case Absent => []
    case Present(gs) => gs
  }

  /**
   * One "add" on the readinessGates member: at the member itself it sets
   * (or replaces) the whole array; at ".../-" it appends one element, and
   * fails if the array does not exist.  A single gate where the array goes,
   * or an array where one gate goes, is refused: RFC 6902 alone would store
   * it, but the API server's schema for readinessGates rejects it.  The
   * hook never sends either.
   */
  function ApplyOp(m: GatesMember, op: PatchOp): (r: Result<GatesMember, string>)
    ensures r.Ok? ==> r.value.Present?
    ensures op.path == AppendPath && m.Absent? ==> r.Err?
  {
    if op.op != "add" then Err("operation not modelled")
    else if op.path == GatesPath then
      match op.value
      case GateList(gs) => Ok(Present(gs))
      case OneGate(_) => Err("readinessGates must be an array")
    else if op.path == AppendPath then
      match (m, op.value)
      case (Absent, _) => Err("path does not exist")
      case (Present(gs), OneGate(g)) => Ok(Present(gs + [g]))
      case (Present(_), GateList(_)) => Err("readinessGates element must be an object")
    else Err("path not modelled")
  }

  function ApplyPatch(m: GatesMember, ops: seq<PatchOp>): Result<GatesMember, string>
    decreases |ops|
  {
    if ops == [] then Ok(m)
    else
      match ApplyOp(m, ops[0])
      case Err(e) => Err(e)
      case Ok(m') => ApplyPatch(m', ops[1..])
  }

  /**
   * Whichever shape the hook chooses, applying its patch to the document
   * the Deployment came from appends exactly the prefixed gate to the
   * existing gates, whether the empty list was absent or written out.
   */
  lemma PatchAppendsGate(req: AdmissionRequest, m: GatesMember)
    requires req.kind.kind == "Deployment" && req.decoded.Ok?
    requires InjectLabel in req.decoded.value.labels
    requires DecodedGates(m) == req.decoded.value.readinessGates
    ensures var r := ProcessAdmissionReview(Some(req), None);
      var d := req.decoded.value;
      && r.patch.Some?
      && ApplyPatch(m, r.patch.value) == Ok(Present(d.readinessGates + [ReadinessGate(ConditionType(d.labels[InjectLabel]))]))
  {
    var d := req.decoded.value;
    var r := ProcessAdmissionReview(Some(req), None);
    var g := ReadinessGate(ConditionType(d.labels[InjectLabel]));
    if d.readinessGates == [] {
      assert [g] == d.readinessGates + [g];
    } else {
      assert m.Present?;
    }
    assert r.patch.value[1..] == [];
  }

  /** Why the hook does not always append: an append to a missing array fails. */
  lemma AppendToMissingListFails(g: ReadinessGate)
    ensures ApplyPatch(Absent, [PatchOp("add", AppendPath, OneGate(g))]).Err?
  {
  }

  /** The hook does not look for an existing identical gate: re-admitting a gated Deployment adds it again. */
  lemma ExistingGateIsAppendedAgain(req: AdmissionRequest, m: GatesMember)
    requires req.kind.kind == "Deployment" && req.decoded.Ok?
    requires InjectLabel in req.decoded.value.labels
    requires DecodedGates(m) == req.decoded.value.readinessGates
    requires ReadinessGate(ConditionType(req.decoded.value.labels[InjectLabel])) in req.decoded.value.readinessGates
    ensures var r := ProcessAdmissionReview(Some(req), None);
      var g := ReadinessGate(ConditionType(req.decoded.value.labels[InjectLabel]));
      && r.patch == Some([PatchOp("add", AppendPath, OneGate(g))])
      && ApplyPatch(m, r.patch.value).Ok?
      && multiset(DecodedGates(ApplyPatch(m, r.patch.value).value))[g]
         == multiset(req.decoded.value.readinessGates)[g] + 1
  {
    PatchAppendsGate(req, m);
  }
}

=== FILE: ca_bundle.dfy ===
/**
 * Trust-anchor registration of internal/webhook/patch.go: fetch the named
 * MutatingWebhookConfiguration, set every webhook's CA bundle to the
 * generated CA certificate, and write the object back.  The cluster API is
 * abstract: the fetch outcome and the update outcome are parameters.
 */
module CABundle {
  import opened Common

  datatype ServiceReference = ServiceReference(namespace: string, name: string, path: Option<string>, port: Option<int>)

  datatype ClientConfig = ClientConfig(url: Option<string>, service: Option<ServiceReference>, caBundle: seq<Byte>)

  /** One webhook entry; the fields the registrar does not touch are kept as they come. */
  datatype MutatingWebhook = MutatingWebhook(
    name: string,
    clientConfig: ClientConfig,
    admissionReviewVersions: seq<string>,
    sideEffects: Option<string>,
    failurePolicy: Option<string>,
    timeoutSeconds: Option<int>
  )

  datatype WebhookConfiguration = WebhookConfiguration(name: string, resourceVersion: string, webhooks: seq<MutatingWebhook>)

  datatype PatchError =
    | GetFailed(configName: string, cause: string)
    | UpdateFailed(cause: string)

  /** The loop of lines 22-24: every entry's CA bundle becomes `ca`. */
  function InjectCABundle(config: WebhookConfiguration, ca: seq<Byte>): (r: WebhookConfiguration)
    ensures r.name == config.name && r.resourceVersion == config.resourceVersion
    ensures |r.webhooks| == |config.webhooks|
    ensures forall i :: 0 <= i < |r.webhooks| ==> r.webhooks[i].clientConfig.caBundle == ca
    // every other field of every entry, in the same order, is unchanged
    ensures forall i :: 0 <= i < |r.webhooks| ==>
      r.webhooks[i].(clientConfig := r.webhooks[i].clientConfig.(caBundle := config.webhooks[i].clientConfig.caBundle))
        == config.webhooks[i]
  {
    var ws := config.webhooks;
    config.(webhooks := seq(|ws|, i requires 0 <= i < |ws| =>
      ws[i].(clientConfig := ws[i].clientConfig.(caBundle := ca))))
  }

  /** Injecting the same bundle twice is the same as injecting it once. */
  lemma InjectIdempotent(config: WebhookConfiguration, ca: seq<Byte>)
    ensures InjectCABundle(InjectCABundle(config, ca), ca) == InjectCABundle(config, ca)
  {
    var once := InjectCABundle(config, ca);
    var twice := InjectCABundle(once, ca);
    assert twice.webhooks == once.webhooks by {
      forall i | 0 <= i < |once.webhooks|
        ensures twice.webhooks[i] == once.webhooks[i]
      {
        assert once.webhooks[i].clientConfig.(caBundle := ca) == once.webhooks[i].clientConfig;
      }
    }
  }

  /** What PatchWebhookCABundle sent to the API server, and what it returned. */
  datatype PatchRun = PatchRun(updateSent: Option<WebhookConfiguration>, err: Option<PatchError>)

  /**
   * PatchWebhookCABundle.  `fetched` is the outcome of the Get of
   * `configName`; `updateError` is the error, if any, the Update returns.
   */
  function PatchWebhookCABundle(configName: string, ca: seq<Byte>,
                                fetched: Result<WebhookConfiguration, string>,
                                updateError: Option<string>): (r: PatchRun)
    // a failed fetch is reported and nothing is written
    ensures fetched.Err? ==> r == PatchRun(None, Some(GetFailed(configName, fetched.error)))
    // otherwise exactly one Update, of the fetched object with every CA bundle replaced,
    // even when it has no webhooks at all
    ensures fetched.Ok? ==>
      && r.updateSent.Some?
      && r.updateSent.value.name == fetched.value.name
      && |r.updateSent.value.webhooks| == |fetched.value.webhooks|
      && (forall i :: 0 <= i < |r.updateSent.value.webhooks| ==> r.updateSent.value.webhooks[i].clientConfig.caBundle == ca)
      && (fetched.value.webhooks == [] ==> r.updateSent == Some(fetched.value))
    // the object sent is the fetched one with the CA injected, and nothing else changed
    ensures fetched.Ok? ==> r.updateSent == Some(InjectCABundle(fetched.value, ca))
    // the outcome is the Update's: nil on success, its error otherwise
    ensures fetched.Ok? ==> (r.err.None? <==> updateError.None?)
    ensures fetched.Ok? && updateError.Some? ==> r.err == Some(UpdateFailed(updateError.value))
  {
    match fetched
    case Err(e) => PatchRun(None, Some(GetFailed(configName, e)))
    case Ok(config) =>
      var updated := InjectCABundle(config, ca);
      match updateError
      case Some(e) => PatchRun(Some(updated), Some(UpdateFailed(e)))
      case None => PatchRun(Some(updated), None)
  }

  /** Re-running the registration against its own result sends the same object again. */
  lemma PatchTwiceSendsSameObject(configName: string, ca: seq<Byte>, config: WebhookConfiguration)
    ensures var first := PatchWebhookCABundle(configName, ca, Ok(config), None);
      PatchWebhookCABundle(configName, ca, Ok(first.updateSent.value), None).updateSent == first.updateSent
  {
    InjectIdempotent(config, ca);
  }
}

=== FILE: certs.dfy ===
/**
 * Certificate bootstrap of internal/webhook/certs.go: a self-signed CA and
 * a server certificate for the webhook service, both valid for a year.
 * The certificate templates are modelled field by field; RSA key
 * generation, X.509 signing and the PEM text encoding are parameters or
 * opaque bytes.
 */
module Certs {
  import opened Common
  import Config

  /** A clock reading in nanoseconds, as Go's `time.Time` arithmetic uses. */
  type Instant = int

  const Hour: Config.Duration := 3600 * Config.Second

  /** How long both certificates are valid. */
  const Validity: Config.Duration := 365 * 24 * Hour

  const CASerial: int := 2025
  const ServerSerial: int := 2026

  datatype KeyUsage = DigitalSignature | CertSign

  datatype ExtKeyUsage = ClientAuth | ServerAuth

  datatype Name = Name(commonName: string, organization: seq<string>)

  /** The fields of an `x509.Certificate` template that GenerateCerts sets. */
  datatype CertTemplate = CertTemplate(
    serialNumber: int,
    subject: Name,
    dnsNames: seq<string>,
    notBefore: Instant,
    notAfter: Instant,
    isCA: bool,
    basicConstraintsValid: bool,
    keyUsage: set<KeyUsage>,
    extKeyUsage: seq<ExtKeyUsage>,
    subjectKeyId: seq<Byte>
  )

  /** An RSA key pair as opaque bytes: the public key and the PKCS #1 encoding of the private key. */
  datatype RsaKey = RsaKey(publicKey: seq<Byte>, pkcs1: seq<Byte>)

  /**
   * The cryptographic library: the outcomes of the two key generations,
   * and `sign(template, parent, publicKey, signer)` standing for
   * `x509.CreateCertificate` (the DER bytes, or an error).
   */
  datatype Crypto = Crypto(
    caKey: Result<RsaKey, string>,
    serverKey: Result<RsaKey, string>,
    sign: (CertTemplate, CertTemplate, seq<Byte>, RsaKey) -> Result<seq<Byte>, string>
  )

  /** A PEM block before text encoding: its type line and its content. */
  datatype PemBlock = PemBlock(blockType: string, content: seq<Byte>)

  datatype Bundle = Bundle(caCert: PemBlock, serverCert: PemBlock, serverKey: PemBlock)

  datatype CertError =
    | CAKeyFailed(cause: string)
    | CACertFailed(cause: string)
    | ServerKeyFailed(cause: string)
    | ServerCertFailed(cause: string)

  /** The names the server certificate is valid for. */
  function DnsNames(serviceName: string, namespace: string): (names: seq<string>)
    ensures |names| == 3
    ensures names[0] == serviceName
    ensures names[1] == serviceName + "." + namespace
    ensures names[2] == names[1] + ".svc"
  {
    [serviceName, serviceName + "." + namespace, serviceName + "." + namespace + ".svc"]
  }

  /** The self-signed CA template (lines 22-31). */
  function CATemplate(now: Instant): (t: CertTemplate)
    ensures t.serialNumber == 2025
    ensures t.isCA && t.basicConstraintsValid
    ensures t.keyUsage == {DigitalSignature, CertSign}
    ensures t.extKeyUsage == [ClientAuth, ServerAuth]
    ensures t.notBefore == now && t.notAfter == now + 365 * 24 * 3600 * 1_000_000_000
    ensures t.subject == Name("", ["Readiness Controller CA"])
    ensures t.dnsNames == [] && t.subjectKeyId == []
  {
    CertTemplate(CASerial, Name("", ["Readiness Controller CA"]), [], now, now + Validity,
                 true, true, {DigitalSignature, CertSign}, [ClientAuth, ServerAuth], [])
  }

  /** The server template (lines 43-61). */
  function ServerTemplate(serviceName: string, namespace: string, now: Instant): (t: CertTemplate)
    ensures t.serialNumber == 2026
    ensures t.dnsNames == [serviceName, serviceName + "." + namespace, serviceName + "." + namespace + ".svc"]
    ensures t.subject.commonName == t.dnsNames[2]
    ensures t.subject.organization == ["Readiness Controller"]
    ensures !t.isCA && !t.basicConstraintsValid
    ensures t.keyUsage == {DigitalSignature}
    ensures t.extKeyUsage == [ClientAuth, ServerAuth]
    ensures t.notBefore == now && t.notAfter == now + 365 * 24 * 3600 * 1_000_000_000
    ensures t.subjectKeyId == [1, 2, 3, 4, 6]
  {
    CertTemplate(ServerSerial,
                 Name(serviceName + "." + namespace + ".svc", ["Readiness Controller"]),
                 DnsNames(serviceName, namespace), now, now + Validity,
                 false, false, {DigitalSignature}, [ClientAuth, ServerAuth], [1, 2, 3, 4, 6])
  }

  /**
   * GenerateCerts.  `caNow` is the clock when the CA template is built and
   * `serverNow` when the server template is built; the CA key generation
   * and signing lie between the two.
   */
  function GenerateCerts(serviceName: string, namespace: string, caNow: Instant, serverNow: Instant,
                         crypto: Crypto): (r: Result<Bundle, CertError>)
    // the steps run in order and the first failure is returned, with no bundle
    ensures crypto.caKey.Err? ==> r == Err(CAKeyFailed(crypto.caKey.error))
    ensures crypto.caKey.Ok? ==>
      var ca := CATemplate(caNow);
      var caKey := crypto.caKey.value;
      var caDer := crypto.sign(ca, ca, caKey.publicKey, caKey);
      && (caDer.Err? ==> r == Err(CACertFailed(caDer.error)))
      && (caDer.Ok? && crypto.serverKey.Err? ==> r == Err(ServerKeyFailed(crypto.serverKey.error)))
      && (caDer.Ok? && crypto.serverKey.Ok? ==>
            var leaf := ServerTemplate(serviceName, namespace, serverNow);
            var serverKey := crypto.serverKey.value;
            // the leaf is signed with the CA template as parent and the CA's key
            var serverDer := crypto.sign(leaf, ca, serverKey.publicKey, caKey);
            && (serverDer.Err? ==> r == Err(ServerCertFailed(serverDer.error)))
            && (serverDer.Ok? ==> r == Ok(Bundle(PemBlock("CERTIFICATE", caDer.value),
                                                 PemBlock("CERTIFICATE", serverDer.value),
                                                 PemBlock("RSA PRIVATE KEY", serverKey.pkcs1)))))
  {
    match crypto.caKey
    case Err(e) => Err(CAKeyFailed(e))
    case Ok(caKey) =>
      var ca := CATemplate(caNow);
      match crypto.sign(ca, ca, caKey.publicKey, caKey)
      case Err(e) => Err(CACertFailed(e))
      case Ok(caDer) =>
        match crypto.serverKey
        case Err(e) => Err(ServerKeyFailed(e))
        case Ok(serverKey) =>
          match crypto.sign(ServerTemplate(serviceName, namespace, serverNow), ca, serverKey.publicKey, caKey)
          case Err(e) => Err(ServerCertFailed(e))
          case Ok(serverDer) =>
            Ok(Bundle(PemBlock("CERTIFICATE", caDer), PemBlock("CERTIFICATE", serverDer),
                      PemBlock("RSA PRIVATE KEY", serverKey.pkcs1)))
  }

  /**
   * The two templates differ where a chain needs them to: serial, CA flag
   * and key usage.  With a clock that does not run backwards the server
   * certificate expires no earlier than its CA.
   */
  lemma TemplatesAreDistinct(serviceName: string, namespace: string, caNow: Instant, serverNow: Instant)
    requires caNow <= serverNow
    ensures CATemplate(caNow).serialNumber != ServerTemplate(serviceName, namespace, serverNow).serialNumber
    ensures CATemplate(caNow).isCA && !ServerTemplate(serviceName, namespace, serverNow).isCA
    ensures CertSign in CATemplate(caNow).keyUsage && CertSign !in ServerTemplate(serviceName, namespace, serverNow).keyUsage
    ensures CATemplate(caNow).notAfter <= ServerTemplate(serviceName, namespace, serverNow).notAfter
    ensures CATemplate(caNow).notAfter - CATemplate(caNow).notBefore
         == ServerTemplate(serviceName, namespace, serverNow).notAfter - ServerTemplate(serviceName, namespace, serverNow).notBefore
  {
  }
}

=== FILE: common.dfy ===
/** Small datatypes shared by every module of the model. */
module Common {

  /** A value that may be missing (a Go nil pointer or an absent map entry). */
  datatype Option<+T> = None | Some(value: T)

  /** The value of a Go `(T, error)` pair: either the value or the error. */
  datatype Result<+T, +E> = Ok(value: T) | Err(error: E)

  /** One byte of a Go `[]byte`. */
  type Byte = b: int | 0 <= b < 256
}

=== FILE: config.dfy ===
/**
 * The gate-rule record and the interval fallback of internal/config/config.go.
 * Reading and decoding the rules file is not modelled.
 */
module Config {
  import opened Common

  /** A Go `time.Duration`: a signed count of nanoseconds. */
  type Duration = int

  const Second: Duration := 1_000_000_000

  /** The interval used when the configured one does not parse. */
  const DefaultInterval: Duration := 5 * Second

  /** One configured gate; every field is the raw string of the rules file. */
  datatype GateRule = GateRule(
    name: string,         // unique key of the rule
    gateName: string,     // condition type injected into pods
    targetLabel: string,  // selector of the gated pods
    namespace: string,
    checkType: string,    // "http", "tcp" or "exec"
    checkTarget: string,  // URL, address or command line
    interval: string      // e.g. "5s", "10s"
  )

  /**
   * The probing interval of a rule.  `parseDuration` stands for Go's
   * `time.ParseDuration`: `None` where it reports an error.
   */
  function ParseInterval(durationStr: string, parseDuration: string -> Option<Duration>): (d: Duration)
    // a parsed duration is used exactly as parsed, without clamping
    ensures parseDuration(durationStr).Some? ==> d == parseDuration(durationStr).value
    // anything unparseable falls back to five seconds; no error escapes
    ensures parseDuration(durationStr).None? ==> d == 5 * Second
    // so a zero or negative interval can only come from the parser itself
    ensures d <= 0 ==> parseDuration(durationStr) == Some(d)
  {
    match parseDuration(durationStr)
    case Some(parsed) => parsed
    case None => DefaultInterval
  }
}

=== FILE: controller.dfy ===
/**
 * The CRD-status reconciler of internal/controller/controller.go.  One
 * reconcile pass is a pure state transition: from the probe verdict, the
 * display cache, the Probe store and the clock it computes the new cache,
 * the new store and the list of writes it issued.  Store failures are
 * given as `Faults`, one flag per call site.  Metrics are not modelled.
 */
module Controller {
  import opened Common
  import opened Config
  import opened ProbeApi
  import Display

  const Minute: Time := 60

  /** A write sent to the store, and whether the store accepted it. */
  datatype Call =
    | CreateCall(probe: Probe, succeeded: bool)
    | UpdateStatusCall(probe: Probe, succeeded: bool)

  datatype State = State(display: Display.StateStore, probes: ProbeStore)

  /** Which store calls of one pass fail for reasons outside the model. */
  datatype Faults = Faults(
    fetchFails: bool,      // the first Get of the pass
    ensureGetFails: bool,  // the Get inside ensureCR
    createFails: bool,     // the Create inside ensureCR
    refetchFails: bool,    // the Get after a successful ensureCR
    updateFails: bool      // the UpdateStatus
  )

  const NoFaults: Faults := Faults(false, false, false, false, false)

  datatype Ensured = Ensured(probes: ProbeStore, calls: seq<Call>, err: Option<ApiError>)

  datatype Tick = Tick(state: State, calls: seq<Call>)

  // ---------------------------------------------------------------------
  // ensureCR

  /** The resource ensureCR creates for a rule. */
  function NewProbe(rule: GateRule): (p: Probe)
    ensures p.name == rule.name && p.namespace == rule.namespace
    ensures p.spec.checkType == rule.checkType && p.spec.checkTarget == rule.checkTarget
    ensures p.spec.interval == rule.interval
  {
    Probe(rule.name, rule.namespace, ProbeSpec(rule.checkType, rule.checkTarget, rule.interval), EmptyStatus)
  }

  /**
   * Make sure the rule's resource exists: any failed Get, whatever its
   * cause, counts as "absent" and leads to exactly one Create.
   */
  function EnsureCR(rule: GateRule, probes: ProbeStore, getFails: bool, createFails: bool): (r: Ensured)
    ensures Get(probes, rule.name, getFails).Ok? ==> r == Ensured(probes, [], None)
    ensures Get(probes, rule.name, getFails).Err? ==>
      && |r.calls| == 1
      && r.calls[0].CreateCall?
      && r.calls[0].probe == NewProbe(rule)
      && (r.calls[0].succeeded <==> r.err.None?)
    ensures r.err.None? <==> (!getFails && rule.name in probes) || (!createFails && rule.name !in probes)
    ensures r.err.None? ==> rule.name in r.probes
    ensures r.err.None? && rule.name !in probes ==> r.probes == probes[rule.name := NewProbe(rule)]
    ensures r.err.Some? ==> r.probes == probes
    ensures forall k :: k in probes ==> k in r.probes && r.probes[k] == probes[k]
    ensures r.probes.Keys <= probes.Keys + {rule.name}
  {
    match Get(probes, rule.name, getFails)
    case Ok(_) => Ensured(probes, [], None)
    case Err(_) =>
      var c := Create(probes, NewProbe(rule), createFails);
      Ensured(c.store, [CreateCall(NewProbe(rule), c.err.None?)], c.err)
  }

  // ---------------------------------------------------------------------
  // the status decision

  /** The message a verdict is reported with. */
  function DesiredMessage(healthy: bool): (m: string)
    ensures m == "Check passed" <==> healthy
    ensures m == "Check failed" <==> !healthy
  {
    if healthy then "Check passed" else "Check failed"
  }

  /** The stored (healthy, message) pair differs from the one the verdict calls for. */
  predicate PairDiffers(status: ProbeStatus, healthy: bool) {
    status.healthy != healthy || status.message != DesiredMessage(healthy)
  }

  /** The stored timestamp is missing or more than a minute old. */
  predicate Stale(status: ProbeStatus, now: Time) {
    status.lastProbeTime.None? || now - status.lastProbeTime.value > Minute
  }

  /** The write-throttling rule: write on a change of the pair, or as a heartbeat after a minute. */
  predicate NeedsWrite(status: ProbeStatus, healthy: bool, now: Time) {
    PairDiffers(status, healthy) || Stale(status, now)
  }

  /** The fetched resource with its status set to the verdict, its message and the current time. */
  function Stamped(cr: Probe, healthy: bool, now: Time): Probe {
    cr.(status := ProbeStatus(healthy, DesiredMessage(healthy), Some(now)))
  }

  /** The status write the throttling rule asks for on `cr`, if any: the stamped resource. */
  function ThrottledWrite(cr: Probe, healthy: bool, now: Time, updateFails: bool): (w: seq<Call>)
    ensures |w| <= 1
    ensures w != [] <==> NeedsWrite(cr.status, healthy, now)
  {
    if NeedsWrite(cr.status, healthy, now) then [UpdateStatusCall(Stamped(cr, healthy, now), !updateFails)] else []
  }

  datatype Written = Written(probes: ProbeStore, calls: seq<Call>)

  /** Lines 121-149: decide whether the fetched resource's status is written, and write it. */
  function WriteStatus(probes: ProbeStore, cr: Probe, healthy: bool, now: Time, updateFails: bool): (r: Written)
    requires cr.name in probes
    // exactly the write the throttling rule asks for: the verdict, its message and the time, nothing else
    ensures r.calls == ThrottledWrite(cr, healthy, now, updateFails)
    // a heartbeat write only moves the timestamp
    ensures r.calls != [] && !PairDiffers(cr.status, healthy) ==>
      r.calls[0].probe == cr.(status := cr.status.(lastProbeTime := Some(now)))
    ensures r.calls == [] || updateFails ==> r.probes == probes
    ensures r.calls != [] && !updateFails ==>
      r.probes == probes[cr.name := probes[cr.name].(status := Stamped(cr, healthy, now).status)]
  {
    var msg := DesiredMessage(healthy);
    if cr.status.healthy != healthy || cr.status.message != msg then
      var updated := cr.(status := ProbeStatus(healthy, msg, Some(now)));
      var u := UpdateStatus(probes, updated, updateFails);
      Written(u.store, [UpdateStatusCall(updated, u.err.None?)])
    else if cr.status.lastProbeTime.None? || now - cr.status.lastProbeTime.value > Minute then
      var updated := cr.(status := cr.status.(lastProbeTime := Some(now)));
      var u := UpdateStatus(probes, updated, updateFails);
      Written(u.store, [UpdateStatusCall(updated, u.err.None?)])
    else
      Written(probes, [])
  }

  predicate IsCreateOf(c: Call, rule: GateRule) {
    c.CreateCall? && c.probe == NewProbe(rule)
  }

  /** A status write that records the verdict, its message and the current time. */
  predicate IsStampedWrite(c: Call, healthy: bool, now: Time) {
    c.UpdateStatusCall? && c.probe.status == ProbeStatus(healthy, DesiredMessage(healthy), Some(now))
  }

  /**
   * The writes one pass may issue: at most one Create of the rule's
   * resource, first, and at most one stamped status write, last.
   */
  predicate PassShape(calls: seq<Call>, rule: GateRule, healthy: bool, now: Time) {
    || calls == []
    || (|calls| == 1 && (IsCreateOf(calls[0], rule) || IsStampedWrite(calls[0], healthy, now)))
    || (|calls| == 2 && IsCreateOf(calls[0], rule) && IsStampedWrite(calls[1], healthy, now))
  }

  predicate NoStatusWrite(calls: seq<Call>) {
    forall i :: 0 <= i < |calls| ==> !calls[i].UpdateStatusCall?
  }

  /** The pass ended with an UpdateStatus the store accepted. */
  predicate WroteStatus(calls: seq<Call>) {
    calls != [] && calls[|calls| - 1].UpdateStatusCall? && calls[|calls| - 1].succeeded
  }

  // ---------------------------------------------------------------------
  // one reconcile pass

  /**
   * Lines 107-119 and the write that follows: the first fetch failed, so
   * ensureCR runs and, if it succeeds, the resource is fetched again.
   */
  function RecoverAndWrite(rule: GateRule, probes: ProbeStore, healthy: bool, now: Time, f: Faults): (r: Written)
    ensures PassShape(r.calls, rule, healthy, now)
    // a failed Create or re-fetch ends the pass with ensureCR's writes and the store it left
    ensures var ens := EnsureCR(rule, probes, f.ensureGetFails, f.createFails);
      (ens.err.Some? || f.refetchFails) ==> r == Written(ens.probes, ens.calls)
    // a successful re-fetch goes through the same throttling rule as a clean fetch
    ensures var ens := EnsureCR(rule, probes, f.ensureGetFails, f.createFails);
      ens.err.None? && !f.refetchFails ==>
        && rule.name in ens.probes
        && r.calls == ens.calls + ThrottledWrite(ens.probes[rule.name], healthy, now, f.updateFails)
    // ... and the store is what ensureCR left, with the status stamped when the write is needed and accepted
    ensures var ens := EnsureCR(rule, probes, f.ensureGetFails, f.createFails);
      ens.err.None? && !f.refetchFails ==>
        && rule.name in ens.probes
        && var cr := ens.probes[rule.name];
           r.probes == (if NeedsWrite(cr.status, healthy, now) && !f.updateFails
                        then ens.probes[rule.name := Stamped(cr, healthy, now)] else ens.probes)
    ensures WroteStatus(r.calls) ==>
      && rule.name in r.probes
      && r.probes[rule.name].status == ProbeStatus(healthy, DesiredMessage(healthy), Some(now))
    ensures forall k :: k in probes && k != rule.name ==> k in r.probes && r.probes[k] == probes[k]
    ensures r.probes.Keys <= probes.Keys + {rule.name}
    ensures rule.name in probes ==> rule.name in r.probes
  {
    var ens := EnsureCR(rule, probes, f.ensureGetFails, f.createFails);
    if ens.err.Some? then
      Written(ens.probes, ens.calls)
    else
      match Get(ens.probes, rule.name, f.refetchFails)
      case Err(_) => Written(ens.probes, ens.calls)
      case Ok(cr) =>
        assert cr == ens.probes[rule.name];
        var w := WriteStatus(ens.probes, cr, healthy, now, f.updateFails);
        Written(w.probes, ens.calls + w.calls)
  }

  /**
   * One pass (lines 89-150) for `rule`, whose probe has just returned
   * `healthy`, at time `now`; `lastCheck` is the clock text shown on the
   * status page.
   */
  function Reconcile(rule: GateRule, healthy: bool, st: State, now: Time, lastCheck: string, f: Faults): (r: Tick)
    // the display cache takes the verdict first, whatever happens to the store afterwards
    ensures r.state.display
         == Display.UpdateState(st.display, rule.name, rule.checkTarget, rule.checkType, healthy, lastCheck)
    // at most a Create of the rule's resource and then one stamped status write; nothing is retried
    ensures PassShape(r.calls, rule, healthy, now)
    // a Create is sent only when the first fetch failed
    ensures r.calls != [] && r.calls[0].CreateCall? ==> f.fetchFails || rule.name !in st.probes
    // the fetched resource is written exactly when the throttling rule asks for it
    ensures !f.fetchFails && rule.name in st.probes ==>
      var cr := st.probes[rule.name];
      && (NeedsWrite(cr.status, healthy, now) ==>
            r.calls == [UpdateStatusCall(Stamped(cr, healthy, now), !f.updateFails)])
      && (!NeedsWrite(cr.status, healthy, now) ==> r.calls == [] && r.state.probes == st.probes)
      && (f.updateFails ==> r.state.probes == st.probes)
      && (NeedsWrite(cr.status, healthy, now) && !f.updateFails ==>
            r.state.probes == st.probes[rule.name := Stamped(cr, healthy, now)])
    // ensureCR ran but its Create or the re-fetch failed: its writes and the store it left, no status write
    ensures Get(st.probes, rule.name, f.fetchFails).Err? ==>
      var ens := EnsureCR(rule, st.probes, f.ensureGetFails, f.createFails);
      (ens.err.Some? || f.refetchFails) ==> r.calls == ens.calls && r.state.probes == ens.probes
    // it was re-created (or found) and fetched again: the throttling rule decides, as after a clean fetch
    ensures Get(st.probes, rule.name, f.fetchFails).Err? ==>
      var ens := EnsureCR(rule, st.probes, f.ensureGetFails, f.createFails);
      ens.err.None? && !f.refetchFails ==>
        && rule.name in ens.probes
        && r.calls == ens.calls + ThrottledWrite(ens.probes[rule.name], healthy, now, f.updateFails)
        && var cr := ens.probes[rule.name];
           r.state.probes == (if NeedsWrite(cr.status, healthy, now) && !f.updateFails
                              then ens.probes[rule.name := Stamped(cr, healthy, now)] else ens.probes)
    // an accepted status write leaves the verdict, message and time in the store
    ensures WroteStatus(r.calls) ==>
      && rule.name in r.state.probes
      && r.state.probes[rule.name].status == ProbeStatus(healthy, DesiredMessage(healthy), Some(now))
    // no other resource is touched
    ensures forall k :: k in st.probes && k != rule.name ==> k in r.state.probes && r.state.probes[k] == st.probes[k]
    ensures r.state.probes.Keys <= st.probes.Keys + {rule.name}
    ensures rule.name in st.probes ==> rule.name in r.state.probes
  {
    var display := Display.UpdateState(st.display, rule.name, rule.checkTarget, rule.checkType, healthy, lastCheck);
    match Get(st.probes, rule.name, f.fetchFails)
    case Ok(cr) =>
      var w := WriteStatus(st.probes, cr, healthy, now, f.updateFails);
      Tick(State(display, w.probes), w.calls)
    case Err(_) =>
      var w := RecoverAndWrite(rule, st.probes, healthy, now, f);
      Tick(State(display, w.probes), w.calls)
  }

  /** A missing resource is created and, once fetched back, stamped in the same pass. */
  lemma MissingResourceIsCreatedAndStamped(rule: GateRule, healthy: bool, st: State, now: Time, lastCheck: string, f: Faults)
    requires rule.name !in st.probes && !f.createFails && !f.refetchFails
    ensures Reconcile(rule, healthy, st, now, lastCheck, f).calls
         == [CreateCall(NewProbe(rule), true), UpdateStatusCall(Stamped(NewProbe(rule), healthy, now), !f.updateFails)]
  {
  }

  /**
   * A pass whose stored status already carries the verdict, stamped within
   * the last minute, writes no status; with a clean first fetch it writes
   * nothing at all.
   */
  lemma CurrentStatusWritesNothing(rule: GateRule, healthy: bool, st: State, now: Time, lastCheck: string, f: Faults)
    requires rule.name in st.probes
    requires !NeedsWrite(st.probes[rule.name].status, healthy, now)
    ensures var t := Reconcile(rule, healthy, st, now, lastCheck, f);
      && NoStatusWrite(t.calls)
      && (!f.fetchFails ==> t.calls == [] && t.state.probes == st.probes)
  {
    var t := Reconcile(rule, healthy, st, now, lastCheck, f);
    if f.fetchFails {
      var ens := EnsureCR(rule, st.probes, f.ensureGetFails, f.createFails);
      if ens.err.None? && !f.refetchFails {
        assert ens.probes == st.probes;
        assert t.calls == ens.calls;
      }
    }
  }

  /**
   * Idempotence: after a pass whose status write was accepted, a second
   * pass with the same verdict less than a minute later writes no status,
   * and with a clean first fetch it writes nothing at all.
   */
  lemma RepeatWithinAMinuteWritesNothing(rule: GateRule, healthy: bool, st: State, now1: Time, now2: Time,
                                         text1: string, text2: string, f1: Faults, f2: Faults)
    requires WroteStatus(Reconcile(rule, healthy, st, now1, text1, f1).calls)
    requires now2 - now1 <= Minute
    ensures var t1 := Reconcile(rule, healthy, st, now1, text1, f1);
      var t2 := Reconcile(rule, healthy, t1.state, now2, text2, f2);
      && NoStatusWrite(t2.calls)
      && (!f2.fetchFails ==> t2.calls == [] && t2.state.probes == t1.state.probes)
  {
    var t1 := Reconcile(rule, healthy, st, now1, text1, f1);
    assert !NeedsWrite(t1.state.probes[rule.name].status, healthy, now2);
    CurrentStatusWritesNothing(rule, healthy, t1.state, now2, text2, f2);
  }

  // ---------------------------------------------------------------------
  // Start

  /** The inputs of one pass: the probe verdict, the clock, the status-page clock text and the store faults. */
  datatype Pass = Pass(healthy: bool, now: Time, lastCheck: string, faults: Faults)

  /**
   * One pass with its inputs taken from `p`.  Its contract repeats only the
   * parts of Reconcile's that a sequence of passes needs, so that proofs
   * about RunPasses do not carry Reconcile's whole contract at every step.
   */
  function Step(rule: GateRule, st: State, p: Pass): (t: Tick)
    ensures |t.calls| <= 2
    ensures rule.name in t.state.display && t.state.display[rule.name].isHealthy == p.healthy
    ensures t.state.display.Keys == st.display.Keys + {rule.name}
    ensures forall k :: k in st.display && k != rule.name ==> k in t.state.display && t.state.display[k] == st.display[k]
    ensures forall k :: k in st.probes && k != rule.name ==> k in t.state.probes && t.state.probes[k] == st.probes[k]
    ensures t.state.probes.Keys <= st.probes.Keys + {rule.name}
  {
    Reconcile(rule, p.healthy, st, p.now, p.lastCheck, p.faults)
  }

  /** Run the passes in order, each on the state the previous one left. */
  function RunPasses(rule: GateRule, st: State, passes: seq<Pass>): (r: Tick)
    ensures |r.calls| <= 2 * |passes|
    ensures passes == [] ==> r == Tick(st, [])
    // the cache ends up holding the verdict of the last pass, under the rule's name
    ensures passes != [] ==>
      && rule.name in r.state.display
      && r.state.display[rule.name].isHealthy == passes[|passes| - 1].healthy
      && r.state.display.Keys == st.display.Keys + {rule.name}
    ensures forall k :: k in st.display && k != rule.name ==> k in r.state.display && r.state.display[k] == st.display[k]
    // the first pass runs on the given state, and its writes come first
    ensures passes != [] ==>
      var t := Step(rule, st, passes[0]);
      |t.calls| <= |r.calls| && r.calls[..|t.calls|] == t.calls
    decreases |passes|
  {
    if passes == [] then Tick(st, [])
    else
      var t := Step(rule, st, passes[0]);
      var rest := RunPasses(rule, t.state, passes[1..]);
      assert (t.calls + rest.calls)[..|t.calls|] == t.calls;
      assert |t.calls + rest.calls| <= 2 * |passes|;
      assert rest.state.display.Keys == st.display.Keys + {rule.name};
      assert rest.state.display[rule.name].isHealthy == passes[|passes| - 1].healthy by {
        if passes[1..] != [] {
          assert passes[1..][|passes[1..]| - 1] == passes[|passes| - 1];
        }
      }
      assert forall k :: k in st.display && k != rule.name ==> k in rest.state.display && rest.state.display[k] == st.display[k];
      Tick(rest.state, t.calls + rest.calls)
  }

  /** Over any number of passes, no resource but the rule's own is changed, and only it may be added. */
  lemma {:induction false} RunPassesTouchOnlyTheRule(rule: GateRule, st: State, passes: seq<Pass>)
    ensures var r := RunPasses(rule, st, passes);
      && (forall k :: k in st.probes && k != rule.name ==> k in r.state.probes && r.state.probes[k] == st.probes[k])
      && r.state.probes.Keys <= st.probes.Keys + {rule.name}
    decreases |passes|
  {
    if passes != [] {
      var t := Step(rule, st, passes[0]);
      RunPassesTouchOnlyTheRule(rule, t.state, passes[1..]);
    }
  }

  datatype Run = Run(state: State, calls: seq<Call>, interval: Duration, crashed: bool)

  /**
   * Lines 38-53 as written: ensureCR (its error only logged), then the
   * ticker, then one pass before the first tick and one pass per tick.
   * Go's `time.NewTicker` panics on a non-positive interval, which ends the
   * process before any pass runs.
   */
  function StartAsWritten(rule: GateRule, parseDuration: string -> Option<Duration>, st: State,
                          boot: Faults, passes: seq<Pass>): (r: Run)
    ensures r.crashed <==> ParseInterval(rule.interval, parseDuration) <= 0
    // a crash leaves what ensureCR did and nothing else: no pass runs
    ensures var ens := EnsureCR(rule, st.probes, boot.ensureGetFails, boot.createFails);
      r.crashed ==> r.calls == ens.calls && r.state == st.(probes := ens.probes)
  {
    var ens := EnsureCR(rule, st.probes, boot.ensureGetFails, boot.createFails);
    var interval := ParseInterval(rule.interval, parseDuration);
    if interval <= 0 then
      Run(st.(probes := ens.probes), ens.calls, interval, true)
    else
      var t := RunPasses(rule, st.(probes := ens.probes), passes);
      Run(t.state, ens.calls + t.calls, interval, false)
  }

  /** An interval of "0s" parses, is not clamped, and crashes the as-written start before its first pass. */
  lemma ZeroIntervalCrashesStart(rule: GateRule, parseDuration: string -> Option<Duration>, st: State,
                                 boot: Faults, passes: seq<Pass>)
    requires rule.interval == "0s" && parseDuration("0s") == Some(0)
    requires passes != [] && rule.name !in st.display
    ensures StartAsWritten(rule, parseDuration, st, boot, passes).crashed
    ensures rule.name !in StartAsWritten(rule, parseDuration, st, boot, passes).state.display
  {
  }

  /** The ticker interval with a non-positive parse result replaced by the default. */
  function TickerInterval(rule: GateRule, parseDuration: string -> Option<Duration>): (d: Duration)
    ensures d > 0
    ensures ParseInterval(rule.interval, parseDuration) > 0 ==> d == ParseInterval(rule.interval, parseDuration)
    ensures ParseInterval(rule.interval, parseDuration) <= 0 ==> d == DefaultInterval
  {
    var d := ParseInterval(rule.interval, parseDuration);
    if d > 0 then d else DefaultInterval
  }

  /**
   * Start with a ticker that always has a positive interval.  A failed
   * ensureCR is not fatal: the first pass runs before the first tick
   * whatever ensureCR returned, and every later tick runs one more pass.
   */
  function Start(rule: GateRule, parseDuration: string -> Option<Duration>, st: State,
                 boot: Faults, passes: seq<Pass>): (r: Run)
    ensures !r.crashed && r.interval > 0
    // ensureCR's writes come first: a Create exactly when its Get failed
    ensures var ens := EnsureCR(rule, st.probes, boot.ensureGetFails, boot.createFails);
      && |ens.calls| <= |r.calls| && r.calls[..|ens.calls|] == ens.calls
      && |r.calls| <= |ens.calls| + 2 * |passes|
    // every pass runs, so the cache shows the last verdict
    ensures passes != [] ==>
      && rule.name in r.state.display
      && r.state.display[rule.name].isHealthy == passes[|passes| - 1].healthy
    // it agrees with the as-written start whenever that one does not crash
    ensures ParseInterval(rule.interval, parseDuration) > 0 ==> r == StartAsWritten(rule, parseDuration, st, boot, passes)
    // in every case it is the as-written start run with the fallback interval, so every pass runs
    ensures r == StartAsWritten(rule, _ => Some(TickerInterval(rule, parseDuration)), st, boot, passes)
  {
    var ens := EnsureCR(rule, st.probes, boot.ensureGetFails, boot.createFails);
    var interval := TickerInterval(rule, parseDuration);
    var t := RunPasses(rule, st.(probes := ens.probes), passes);
    assert (ens.calls + t.calls)[..|ens.calls|] == ens.calls;
    Run(t.state, ens.calls + t.calls, interval, false)
  }
}

=== FILE: display.dfy ===
/**
 * The display cache of internal/ui/server.go: a map from rule name to the
 * latest gate status, written by every reconcile pass and read, as a list
 * sorted by name, by the status page.  The lock, the HTML rendering and the
 * HTTP listener are not modelled; the "15:04:05" clock text is a parameter.
 */
module Display {
  import StringOrder

  datatype GateStatus = GateStatus(
    name: string,
    target: string,
    isHealthy: bool,
    lastCheck: string,
    checkType: string,
    message: string
  )

  type StateStore = map<string, GateStatus>

  const GateOpen: string := "Gate Open"
  const GateClosed: string := "Gate Closed"

  /** Every entry is filed under its own name. */
  predicate KeyedByName(store: StateStore) {
    forall k :: k in store ==> store[k].name == k
  }

  /** Record the latest probe result of a rule, replacing whatever was there. */
  function UpdateState(store: StateStore, ruleName: string, target: string, checkType: string,
                       healthy: bool, lastCheck: string): (store': StateStore)
    ensures store'.Keys == store.Keys + {ruleName}
    ensures var g := store'[ruleName];
      && g.name == ruleName && g.target == target && g.checkType == checkType
      && g.isHealthy == healthy && g.lastCheck == lastCheck
    ensures store'[ruleName].message == GateOpen <==> healthy
    ensures store'[ruleName].message == GateClosed <==> !healthy
    ensures forall k :: k in store && k != ruleName ==> store'[k] == store[k]
    ensures KeyedByName(store) ==> KeyedByName(store')
  {
    var msg := if healthy then GateOpen else GateClosed;
    store[ruleName := GateStatus(ruleName, target, healthy, lastCheck, checkType, msg)]
  }

  /** Go's `sort.Slice` with `list[i].Name < list[j].Name`: no later entry sorts before an earlier one. */
  predicate SortedByName(list: seq<GateStatus>) {
    forall i, j :: 0 <= i < j < |list| ==> !StringOrder.Less(list[j].name, list[i].name)
  }

  predicate StrictlyAscending(list: seq<GateStatus>) {
    forall i, j :: 0 <= i < j < |list| ==> StringOrder.Less(list[i].name, list[j].name)
  }

  function InsertAt<T>(s: seq<T>, p: nat, x: T): (r: seq<T>)
    requires p <= |s|
    ensures |r| == |s| + 1
    ensures forall i :: 0 <= i < p ==> r[i] == s[i]
    ensures r[p] == x
    ensures forall i :: p < i < |r| ==> r[i] == s[i - 1]
  {
    s[..p] + [x] + s[p..]
  }

  /** Where an entry named `name` goes in a sorted list: after every name not above it, before every name above it. */
  function InsertionPoint(list: seq<GateStatus>, name: string): (p: nat)
    requires SortedByName(list)
    ensures p <= |list|
    ensures forall i :: 0 <= i < p ==> !StringOrder.Less(name, list[i].name)
    ensures forall i :: p <= i < |list| ==> StringOrder.Less(name, list[i].name)
  {
    if list == [] then 0
    else if StringOrder.Less(name, list[0].name) then
      AboveHeadIsAboveAll(list, name);
      0
    else
      1 + InsertionPoint(list[1..], name)
  }

  lemma AboveHeadIsAboveAll(list: seq<GateStatus>, name: string)
    requires SortedByName(list) && list != []
    requires StringOrder.Less(name, list[0].name)
    ensures forall i :: 0 <= i < |list| ==> StringOrder.Less(name, list[i].name)
  {
    forall i | 0 < i < |list|
      ensures StringOrder.Less(name, list[i].name)
    {
      if list[i].name != list[0].name {
        StringOrder.LessTotal(list[0].name, list[i].name);
        StringOrder.LessTransitive(name, list[0].name, list[i].name);
      }
    }
  }

  lemma InsertKeepsSorted(list: seq<GateStatus>, g: GateStatus)
    requires SortedByName(list)
    ensures SortedByName(InsertAt(list, InsertionPoint(list, g.name), g))
  {
    var p := InsertionPoint(list, g.name);
    var r := InsertAt(list, p, g);
    forall i, j | 0 <= i < j < |r|
      ensures !StringOrder.Less(r[j].name, r[i].name)
    {
      if i == p {
        StringOrder.LessAsymmetric(g.name, r[j].name);
      }
    }
  }

  lemma SortedDistinctIsStrict(list: seq<GateStatus>)
    requires SortedByName(list)
    requires forall i, j :: 0 <= i < j < |list| ==> list[i].name != list[j].name
    ensures StrictlyAscending(list)
  {
    forall i, j | 0 <= i < j < |list|
      ensures StringOrder.Less(list[i].name, list[j].name)
    {
      StringOrder.LessTotal(list[i].name, list[j].name);
    }
  }

  /**
   * The status page's view of the cache: every entry once, ordered by
   * name.  `keys` (ghost) names the map key each listed entry came from.
   */
  method Snapshot(store: StateStore) returns (list: seq<GateStatus>, ghost keys: seq<string>)
    ensures |list| == |keys| == |store|
    ensures forall i :: 0 <= i < |list| ==> keys[i] in store && list[i] == store[keys[i]]
    ensures forall i, j :: 0 <= i < j < |keys| ==> keys[i] != keys[j]
    ensures forall k :: k in store ==> k in keys
    ensures SortedByName(list)
    ensures KeyedByName(store) ==> StrictlyAscending(list)
  {
    list := [];
    keys := [];
    var rest := store.Keys;
    while rest != {}
      invariant rest <= store.Keys
      invariant |list| == |keys| && |keys| + |rest| == |store|
      invariant forall i :: 0 <= i < |list| ==> keys[i] in store && list[i] == store[keys[i]]
      invariant forall i :: 0 <= i < |keys| ==> keys[i] !in rest
      invariant forall i, j :: 0 <= i < j < |keys| ==> keys[i] != keys[j]
      invariant forall k :: k in store ==> k in rest || k in keys
      invariant SortedByName(list)
      decreases rest
    {
      var k :| k in rest;
      var p := InsertionPoint(list, store[k].name);
      InsertKeepsSorted(list, store[k]);
      list := InsertAt(list, p, store[k]);
      keys := InsertAt(keys, p, k);
      rest := rest - {k};
    }
    if KeyedByName(store) {
      SortedDistinctIsStrict(list);
    }
  }
}

=== FILE: exec_prober.dfy ===
/**
 * The command prober of internal/prober/exec.go: the command line is split
 * into fields once, at construction, and each check runs the first field
 * with the others as arguments.  Running the process is a parameter.
 */
module ExecProbe {
  import opened Common
  import opened StringFields

  datatype ExecProber = ExecProber(command: seq<string>)

  /** A process launch: the program and its arguments, in order. */
  datatype Invocation = Invocation(program: string, args: seq<string>)

  /** What one check did: the verdict and the process it launched, if any. */
  datatype CheckRun = CheckRun(healthy: bool, launched: Option<Invocation>)

  /** Split the configured command line the way `strings.Fields` does. */
  function NewExecProber(cmdStr: string): (p: ExecProber)
    ensures forall i :: 0 <= i < |p.command| ==> IsToken(p.command[i])
    ensures Concat(p.command) == RemoveSpaces(cmdStr)
    ensures Join(p.command) == Squeeze(cmdStr)
    ensures p.command == [] <==> AllSpace(cmdStr)
  {
    FieldsAreTokens(cmdStr);
    FieldsKeepEveryOtherCharacter(cmdStr);
    JoinedFieldsSqueeze(cmdStr);
    NoFieldsIffBlank(cmdStr);
    ExecProber(Fields(cmdStr))
  }

  /**
   * One health check.  `runSucceeds(inv)` is whether running `inv` ends
   * without error (a zero exit status); it is consulted only when a
   * process is actually launched.
   */
  function Check(p: ExecProber, runSucceeds: Invocation -> bool): (r: CheckRun)
    // an empty command is unhealthy and launches nothing
    ensures p.command == [] ==> r == CheckRun(false, None)
    // otherwise the first field is the program and the rest, in order, its arguments
    ensures p.command != [] ==>
      && r.launched.Some?
      && [r.launched.value.program] + r.launched.value.args == p.command
    ensures r.healthy <==> r.launched.Some? && runSucceeds(r.launched.value)
  {
    if |p.command| == 0 then
      CheckRun(false, None)
    else
      var inv := Invocation(p.command[0], p.command[1..]);
      CheckRun(runSucceeds(inv), Some(inv))
  }

  /** A blank command line never launches anything and is always unhealthy, whatever the runner. */
  lemma BlankCommandNeverRuns(cmdStr: string, runSucceeds: Invocation -> bool)
    ensures Check(NewExecProber(cmdStr), runSucceeds).launched.None? <==> AllSpace(cmdStr)
    ensures AllSpace(cmdStr) ==> !Check(NewExecProber(cmdStr), runSucceeds).healthy
  {
  }

  /** The launched program and arguments, re-joined with single spaces, give back the squeezed command line. */
  lemma LaunchedCommandMatchesConfig(cmdStr: string, runSucceeds: Invocation -> bool)
    requires !AllSpace(cmdStr)
    ensures var r := Check(NewExecProber(cmdStr), runSucceeds);
      && r.launched.Some?
      && Join([r.launched.value.program] + r.launched.value.args) == Squeeze(cmdStr)
      && IsToken(r.launched.value.program)
      && (forall i :: 0 <= i < |r.launched.value.args| ==> IsToken(r.launched.value.args[i]))
  {
    var p := NewExecProber(cmdStr);
    var r := Check(p, runSucceeds);
    assert [r.launched.value.program] + r.launched.value.args == p.command;
    assert forall i :: 0 <= i < |r.launched.value.args| ==> r.launched.value.args[i] == p.command[i + 1];
  }
}

=== FILE: probe_api.dfy ===
/**
 * The Probe custom resource and an abstract store standing in for the
 * cluster API behind internal/controller/crd_client.go.  Each operation
 * takes a flag saying whether the call fails for a reason outside the
 * model (network, permissions, the resource type not yet installed); on
 * top of that the store answers NotFound and AlreadyExists the way the
 * API server does.
 */
module ProbeApi {
  import opened Common

  /** A clock reading in whole seconds (the precision at which the API server keeps a timestamp). */
  type Time = int

  datatype ProbeSpec = ProbeSpec(checkType: string, checkTarget: string, interval: string)

  datatype ProbeStatus = ProbeStatus(healthy: bool, message: string, lastProbeTime: Option<Time>)

  /** The status of a freshly created resource: Go's zero value. */
  const EmptyStatus: ProbeStatus := ProbeStatus(false, "", None)

  datatype Probe = Probe(name: string, namespace: string, spec: ProbeSpec, status: ProbeStatus)

  /** The resources of one namespace, each filed under its own name. */
  type ProbeStore = s: map<string, Probe> | forall k :: k in s ==> s[k].name == k
    witness map[]

  datatype ApiError = NotFound | AlreadyExists | Unavailable

  /** What a write left behind: the store afterwards and the error, if any. */
  datatype WriteOutcome = WriteOutcome(store: ProbeStore, err: Option<ApiError>)

  function Get(store: ProbeStore, name: string, fails: bool): (r: Result<Probe, ApiError>)
    ensures r.Ok? <==> !fails && name in store
    ensures r.Ok? ==> r.value == store[name]
  {
    if fails then Err(Unavailable)
    else if name !in store then Err(NotFound)
    else Ok(store[name])
  }

  /** Create a resource; the status sub-resource is not written by a create. */
  function Create(store: ProbeStore, probe: Probe, fails: bool): (r: WriteOutcome)
    ensures r.err.None? <==> !fails && probe.name !in store
    ensures r.err.None? ==> r.store == store[probe.name := probe.(status := EmptyStatus)]
    ensures r.err.Some? ==> r.store == store
  {
    if fails then WriteOutcome(store, Some(Unavailable))
    else if probe.name in store then WriteOutcome(store, Some(AlreadyExists))
    else WriteOutcome(store[probe.name := probe.(status := EmptyStatus)], None)
  }

  /** Replace the status of an existing resource; everything else of it is kept. */
  function UpdateStatus(store: ProbeStore, probe: Probe, fails: bool): (r: WriteOutcome)
    ensures r.err.None? <==> !fails && probe.name in store
    ensures r.err.None? ==> r.store == store[probe.name := store[probe.name].(status := probe.status)]
    ensures r.err.Some? ==> r.store == store
  {
    if fails then WriteOutcome(store, Some(Unavailable))
    else if probe.name !in store then WriteOutcome(store, Some(NotFound))
    else WriteOutcome(store[probe.name := store[probe.name].(status := probe.status)], None)
  }
}

=== FILE: string_fields.dfy ===
/**
 * Go's `strings.Fields`: split a string around each run of one or more
 * white-space characters (as `unicode.IsSpace` defines them) and drop the
 * empty pieces.  Next to it are two independent descriptions of the same
 * result, the characters kept (`RemoveSpaces`) and the text obtained by
 * collapsing and trimming white space (`Squeeze`), with the lemmas tying
 * them to `Fields`.
 */
module StringFields {

  /** Go's `unicode.IsSpace`: the Latin-1 spaces plus Unicode's White_Space. */
  predicate IsSpace(c: char) {
    var n := c as int;
    || n == 0x09 || n == 0x0A || n == 0x0B || n == 0x0C || n == 0x0D
    || n == 0x20 || n == 0x85 || n == 0xA0 || n == 0x1680
    || (0x2000 <= n <= 0x200A)
    || n == 0x2028 || n == 0x2029 || n == 0x202F || n == 0x205F || n == 0x3000
  }

  /** A field: non-empty and free of white space. */
  predicate IsToken(w: string) {
    w != [] && forall i :: 0 <= i < |w| ==> !IsSpace(w[i])
  }

  /** `s` with its leading white space removed. */
  function DropSpaces(s: string): (t: string)
    ensures |t| <= |s|
    ensures t == [] || !IsSpace(t[0])
  {
    if s != [] && IsSpace(s[0]) then DropSpaces(s[1..]) else s
  }

  /** What `DropSpaces` removed is white space, and what it kept is a suffix. */
  lemma {:induction false} DropSpacesSplit(s: string)
    ensures s == s[..|s| - |DropSpaces(s)|] + DropSpaces(s)
    ensures AllSpace(s[..|s| - |DropSpaces(s)|])
    decreases |s|
  {
    if s != [] && IsSpace(s[0]) {
      DropSpacesSplit(s[1..]);
      var k := |s| - |DropSpaces(s)|;
      assert s[..k] == [s[0]] + s[1..][..k - 1];
    }
  }

  /** The longest prefix of `s` that holds no white space. */
  function Word(s: string): (w: string)
    ensures |w| <= |s|
    ensures s != [] && !IsSpace(s[0]) ==> |w| > 0
  {
    if s == [] || IsSpace(s[0]) then [] else [s[0]] + Word(s[1..])
  }

  /** `Word` is a white-space-free prefix that stops at white space or at the end. */
  lemma {:induction false} WordIsMaximalPrefix(s: string)
    ensures Word(s) == s[..|Word(s)|]
    ensures forall i :: 0 <= i < |Word(s)| ==> !IsSpace(Word(s)[i])
    ensures |Word(s)| < |s| ==> IsSpace(s[|Word(s)|])
    decreases |s|
  {
    if s != [] && !IsSpace(s[0]) {
      WordIsMaximalPrefix(s[1..]);
    }
  }

  /** The fields of `s`, left to right. */
  function Fields(s: string): seq<string>
    decreases |s|
  {
    var t := DropSpaces(s);
    if t == [] then []
    else
      var w := Word(t);
      [w] + Fields(t[|w|..])
  }

  /** The fields joined with single spaces (Go's `strings.Join(ws, " ")`). */
  function Join(ws: seq<string>): string {
    if ws == [] then []
    else if |ws| == 1 then ws[0]
    else ws[0] + " " + Join(ws[1..])
  }

  /** The fields concatenated with no separator. */
  function Concat(ws: seq<string>): string {
    if ws == [] then [] else ws[0] + Concat(ws[1..])
  }

  /** `s` with every white-space character deleted. */
  function RemoveSpaces(s: string): string {
    if s == [] then []
    else if IsSpace(s[0]) then RemoveSpaces(s[1..])
    else [s[0]] + RemoveSpaces(s[1..])
  }

  /** `s` with every maximal run of white space replaced by one ' '. */
  function Collapse(s: string): string
    decreases |s|
  {
    if s == [] then []
    else if IsSpace(s[0]) then " " + Collapse(DropSpaces(s))
    else [s[0]] + Collapse(s[1..])
  }

  function TrimLeft(s: string): string {
    if s != [] && s[0] == ' ' then TrimLeft(s[1..]) else s
  }

  function TrimRight(s: string): string {
    if s != [] && s[|s| - 1] == ' ' then TrimRight(s[..|s| - 1]) else s
  }

  /** `s` trimmed at both ends, with its inner white-space runs collapsed to one space. */
  function Squeeze(s: string): string {
    TrimRight(TrimLeft(Collapse(s)))
  }

  predicate AllSpace(s: string) {
    forall i :: 0 <= i < |s| ==> IsSpace(s[i])
  }

  // ---------------------------------------------------------------------
  // Helper facts

  lemma DropSpacesIdempotent(s: string)
    ensures DropSpaces(DropSpaces(s)) == DropSpaces(s)
    ensures Fields(DropSpaces(s)) == Fields(s)
  {
  }

  lemma {:induction false} RemoveSpacesAppend(a: string, b: string)
    ensures RemoveSpaces(a + b) == RemoveSpaces(a) + RemoveSpaces(b)
    decreases |a|
  {
    if a == [] {
      assert a + b == b;
    } else {
      assert (a + b)[1..] == a[1..] + b;
      RemoveSpacesAppend(a[1..], b);
    }
  }

  lemma {:induction false} RemoveSpacesOfAllSpace(s: string)
    requires AllSpace(s)
    ensures RemoveSpaces(s) == []
    decreases |s|
  {
    if s != [] {
      RemoveSpacesOfAllSpace(s[1..]);
    }
  }

  lemma {:induction false} RemoveSpacesOfWord(w: string)
    requires forall i :: 0 <= i < |w| ==> !IsSpace(w[i])
    ensures RemoveSpaces(w) == w
    decreases |w|
  {
    if w != [] {
      RemoveSpacesOfWord(w[1..]);
    }
  }

  /** Collapsing a text that starts with a word keeps the word verbatim. */
  lemma {:induction false} CollapseWord(t: string)
    ensures Collapse(t) == Word(t) + Collapse(t[|Word(t)|..])
    decreases |t|
  {
    if t == [] || IsSpace(t[0]) {
      assert Word(t) == [];
      assert t[0..] == t;
    } else {
      var w' := Word(t[1..]);
      var tail := t[|Word(t)|..];
      assert Word(t) == [t[0]] + w';
      assert t[1..][|w'|..] == tail;
      CollapseWord(t[1..]);
      var c := Collapse(tail);
      assert Collapse(t[1..]) == w' + c;
      assert Collapse(t) == [t[0]] + (w' + c);
      assert [t[0]] + (w' + c) == ([t[0]] + w') + c;
    }
  }

  /** A collapsed text begins with the first character it was made from, unless that is white space. */
  lemma CollapseHead(t: string)
    requires t != [] && !IsSpace(t[0])
    ensures Collapse(t) != [] && Collapse(t)[0] == t[0] && t[0] != ' '
  {
  }

  lemma {:induction false} TrimRightAppend(x: string, y: string)
    requires y != [] && y[0] != ' '
    ensures TrimRight(x + y) == x + TrimRight(y)
    decreases |y|
  {
    if y[|y| - 1] == ' ' {
      assert |y| >= 2;
      assert (x + y)[..|x + y| - 1] == x + y[..|y| - 1];
      TrimRightAppend(x, y[..|y| - 1]);
    }
  }

  lemma {:induction false} TrimRightWord(w: string)
    requires IsToken(w)
    ensures TrimRight(w) == w
    ensures TrimRight(w + " ") == w
  {
    assert (w + " ")[..|w + " "| - 1] == w;
  }

  lemma TrimLeftNoLeadingSpace(s: string)
    requires s == [] || s[0] != ' '
    ensures TrimLeft(s) == s
  {
  }

  /** Right-trimming the collapse of a text that does not start with white space joins its fields. */
  lemma {:induction false} TrimRightCollapse(t: string)
    requires t == [] || !IsSpace(t[0])
    ensures TrimRight(Collapse(t)) == Join(Fields(t))
    decreases |t|
  {
    if t != [] {
      var w := Word(t);
      var rest := t[|w|..];
      WordIsMaximalPrefix(t);
      assert IsToken(w);
      assert DropSpaces(t) == t;
      assert Fields(t) == [w] + Fields(rest);
      CollapseWord(t);
      if rest == [] {
        assert Fields(rest) == [];
        assert Collapse(rest) == [];
        assert Collapse(t) == w + [];
        TrimRightWord(w);
      } else {
        var u := DropSpaces(rest);
        assert rest[0] == t[|w|];
        assert Collapse(rest) == " " + Collapse(u);
        DropSpacesIdempotent(rest);
        assert Fields(rest) == Fields(u);
        if u == [] {
          assert Fields(u) == [];
          assert Collapse(u) == [];
          assert Collapse(t) == w + " ";
          TrimRightWord(w);
        } else {
          CollapseHead(u);
          var cu := Collapse(u);
          assert Collapse(t) == w + (" " + cu);
          assert w + (" " + cu) == (w + " ") + cu;
          TrimRightAppend(w + " ", Collapse(u));
          TrimRightCollapse(u);
          var fu := Fields(u);
          assert fu != [];
          assert [w] + fu != [] && ([w] + fu)[1..] == fu;
          assert Join([w] + fu) == w + " " + Join(fu);
        }
      }
    }
  }

  // ---------------------------------------------------------------------
  // Properties of Fields

  /** Every field is non-empty and holds no white space. */
  lemma {:induction false} FieldsAreTokens(s: string)
    ensures forall i :: 0 <= i < |Fields(s)| ==> IsToken(Fields(s)[i])
    decreases |s|
  {
    var t := DropSpaces(s);
    if t != [] {
      var w := Word(t);
      WordIsMaximalPrefix(t);
      FieldsAreTokens(t[|w|..]);
    }
  }

  /** No non-space character is lost, added or reordered: the fields concatenate to `s` minus its white space. */
  lemma {:induction false} FieldsKeepEveryOtherCharacter(s: string)
    ensures Concat(Fields(s)) == RemoveSpaces(s)
    decreases |s|
  {
    var t := DropSpaces(s);
    var k := |s| - |t|;
    DropSpacesSplit(s);
    RemoveSpacesAppend(s[..k], t);
    RemoveSpacesOfAllSpace(s[..k]);
    assert RemoveSpaces(s) == RemoveSpaces(t);
    if t != [] {
      var w := Word(t);
      var rest := t[|w|..];
      WordIsMaximalPrefix(t);
      assert t == w + rest;
      RemoveSpacesAppend(w, rest);
      RemoveSpacesOfWord(w);
      FieldsKeepEveryOtherCharacter(rest);
      var f := Fields(rest);
      assert Fields(s) == [w] + f;
      assert ([w] + f)[0] == w && ([w] + f)[1..] == f;
      assert Concat([w] + f) == w + Concat(f);
    }
  }

  /** Joining the fields with single spaces gives `s` trimmed, with each inner white-space run collapsed. */
  lemma {:induction false} JoinedFieldsSqueeze(s: string)
    ensures Join(Fields(s)) == Squeeze(s)
  {
    var t := DropSpaces(s);
    DropSpacesIdempotent(s);
    if s != [] && IsSpace(s[0]) {
      assert Collapse(s) == " " + Collapse(t);
      if t != [] {
        CollapseHead(t);
      }
      TrimLeftNoLeadingSpace(Collapse(t));
      assert TrimLeft(Collapse(s)) == TrimLeft(Collapse(t));
    } else {
      assert t == s;
      if s != [] {
        CollapseHead(s);
      }
      TrimLeftNoLeadingSpace(Collapse(s));
    }
    assert TrimLeft(Collapse(s)) == Collapse(t);
    TrimRightCollapse(t);
  }

  /** A string has no fields exactly when it is empty or all white space. */
  lemma {:induction false} NoFieldsIffBlank(s: string)
    ensures Fields(s) == [] <==> AllSpace(s)
  {
    var t := DropSpaces(s);
    var k := |s| - |t|;
    DropSpacesSplit(s);
    if t == [] {
      assert s == s[..k];
    } else {
      assert s[k] == t[0];
    }
  }

  /** A single token splits into itself. */
  lemma SingleTokenIsOneField(w: string)
    requires IsToken(w)
    ensures Fields(w) == [w]
  {
    assert DropSpaces(w) == w;
    WordIsMaximalPrefix(w);
    assert Word(w) == w;
    assert w[|w|..] == [];
  }
}

=== FILE: string_order.dfy ===
/**
 * Go's `<` on strings.  Go compares the UTF-8 bytes lexicographically;
 * UTF-8 preserves code-point order, so on decoded strings this is the
 * lexicographic order on characters.
 */
module StringOrder {

  predicate Less(a: string, b: string)
    decreases |a|
  {
    if a == [] then b != []
    else if b == [] then false
    else a[0] < b[0] || (a[0] == b[0] && Less(a[1..], b[1..]))
  }

  lemma {:induction false} LessAsymmetric(a: string, b: string)
    ensures Less(a, b) ==> !Less(b, a)
    decreases |a|
  {
    if a != [] && b != [] && a[0] == b[0] {
      LessAsymmetric(a[1..], b[1..]);
    }
  }

  lemma {:induction false} LessTransitive(a: string, b: string, c: string)
    requires Less(a, b) && Less(b, c)
    ensures Less(a, c)
    decreases |a|
  {
    if a != [] && a[0] == b[0] && b[0] == c[0] {
      LessTransitive(a[1..], b[1..], c[1..]);
    }
  }

  /** Any two different strings are ordered one way or the other. */
  lemma {:induction false} LessTotal(a: string, b: string)
    requires a != b
    ensures Less(a, b) || Less(b, a)
    decreases |a|
  {
    if a != [] && b != [] && a[0] == b[0] {
      assert a == [a[0]] + a[1..] && b == [b[0]] + b[1..];
      LessTotal(a[1..], b[1..]);
    }
  }
}
